=== FILE: README.md ===
# ozef form engine — a Dafny model of its form state

`ozef(schema)` turns a schema of typed fields into a ready-made form: a `Form`
element with a submit handler, `Form.Field.<Name>` controls (with one
`<Option>` sub-entry per radio or select option), `Form.Error.<Name>` views,
`Form.Error.Submission`, `Form.Event.Submit`, and `Form.useReset`. Behind all
of them sits one store per form with five cells: raw values, errors, touched
flags, `submitting` and `submitted`.

This project models that store and every transition that acts on it:

- the per-kind change handlers (text, number, radio, select, checkbox);
- blur, submit (validate all keys, touch all keys, gate, call back), and the
  callback's `finally`;
- `reset` / `useReset`, `setError`, and `setValue` / `getValue`;
- the views derived from the store: field error views, the submission error
  view, and the submit button;
- the naming of the generated namespaces (first letter upper-cased).

Validation is an abstract function `validate(key, raw) -> Valid | Invalid(messages)`
carried by the `Form` value. The schema library's type tests become a
five-variant `Kind`.

Modules, one file each:

| file | module | what it holds |
|---|---|---|
| results.dfy | `Results` | `Option` (standing for `undefined`), `Result` (standing for a throw), map access |
| js_object.dfy | `JsObject` | plain objects as ordered entry lists; `{ ...o, [k]: v }` as `Put` |
| text.dfy | `Text` | key capitalisation and `Array.prototype.join` |
| schema.dfy | `Schema` | field kinds, raw values, the form description, `ALL_TOUCHED` |
| store.dfy | `FormStore` | the five-cell store, its initial state, JavaScript truthiness |
| field_bindings.dfy | `FieldBindings` | change and blur handlers, `setValue` / `getValue`, radio `checked` |
| submission.dfy | `Submission` | submit, settle, reset, `setError`, one whole submit attempt |
| error_views.dfy | `ErrorViews` | field and submission error views, the submit button |
| namespaces.dfy | `Namespaces` | `Form.Field` / `Form.Error` entry names |
| machine.dfy | `Machine` | actions, runs of actions, the store's shape invariant |
| scenarios.dfy | `Scenarios` | concrete walk-throughs on two small schemas |

The model follows the code, including behaviour that is easy to misread:

- `submitted` is declared (src/index.tsx:83) but never written, so it stays
  false.
- The submission view tests the tuple `useAtom` returns for `submitted`,
  which is always truthy (src/index.tsx:475), so the flag plays no part.
- A blocked submit returns without touching `submitting`, so it stays true
  if an earlier attempt is still in flight.
- The select (`Union`) control has no blur handler.
- Reset sets values to `{}`, not to the form's `defaults`
  (src/index.tsx:80 vs 130, 442).
- A callback that throws synchronously never reaches the `finally` step, so
  `submitting` stays true (see Findings).
- A select with literals reads the store with a hook while `ozef` builds the
  namespaces (src/index.tsx:304), so such a form can only be built while a
  component renders.

## Model

| member | source | states |
|---|---|---|
| JsObject.Put | src/index.tsx:389-391 | `{ ...prev, [key]: v }` makes `key` read `v` and leaves every other key's value unchanged. An existing key keeps its position; a new key is appended. Distinct keys stay distinct. |
| Text.Capitalize | src/index.tsx:220 | Throws exactly on the empty key. Otherwise the result is as long as the key, keeps everything after the first character, and starts with the upper-cased first character. |
| Text.CapitalizeIdempotent | src/index.tsx:220 | Capitalising a name that is already capitalised changes nothing. |
| Text.CapitalizeCollides | src/index.tsx:220 | The keys `name` and `Name` get the same entry name `Name`. Which field then owns the name is stated by `Namespaces.CollidingKeysLastWins`. |
| Text.JoinLength | src/index.tsx:420-422 | The joined messages hold every message plus one separator between each pair of neighbours. |
| Text.JoinSnoc | src/index.tsx:420-422 | Joining one more message appends `", "` and that message. |
| Schema.TouchAllAppends | src/index.tsx:86-89 | Folding `{ ...acc, [key]: true }` over distinct new keys appends one `true` entry per key, in order. |
| Schema.AllTouchedShape | src/index.tsx:86-89 | `ALL_TOUCHED` lists exactly the schema keys, in schema order, each `true`. It reads `true` at every schema key and `undefined` elsewhere. |
| FormStore.Init | src/index.tsx:80-84 | A new store holds the defaults as values, empty errors and touched, and both flags false. |
| FormStore.ErrorOf | src/index.tsx:112-116 | A validation result leaves `undefined` exactly when it succeeds. A failure is recorded with its messages. |
| FieldBindings.OnChange | src/index.tsx:378-388 | Text, number, radio and select changes store the event's string and change only that key. The key's error is `undefined` exactly when validation succeeds; otherwise it is the failure. A checkbox change (344-348) stores the negation of the old value's truthiness and leaves errors untouched. Touched and both flags do not change. |
| FieldBindings.OnBlur | src/index.tsx:389-391 | Blur marks only its own key touched and keeps the key order of the touched object. Values, errors and flags do not change. A select has no blur handler, so blurring it changes nothing. |
| FieldBindings.SetValue | src/index.tsx:452-458 | `setValue` writes only its own key's value. Nothing else in the store changes. |
| FieldBindings.GetValue | src/index.tsx:460-467 | `getValue` returns `values[key]`, or `undefined` when the key is absent. |
| FieldBindings.GetAfterSet | src/index.tsx:452-467 | `getValue` after `setValue` returns the value written. Other keys read as before. |
| FieldBindings.SetCurrentValue | src/index.tsx:452-458 | Writing back the value a key already holds leaves the store equal to what it was. |
| FieldBindings.PickRadioChecksOnlyIt | src/index.tsx:242-252 | After a radio option is picked, a radio of that group is checked exactly when it is that option. |
| FieldBindings.ToggleTwice | src/index.tsx:344-348 | Toggling a boolean checkbox twice restores the values. |
| Submission.ValidateAll | src/index.tsx:106-118 | The fresh errors object has exactly the schema keys. Each entry is `undefined` exactly when that key's current value validates; otherwise it holds the failure. |
| Submission.Submit | src/index.tsx:103-145 | Submit replaces errors by a validation of every key and touched by `ALL_TOUCHED`: a valid key's entry is `undefined` and a failing key's entry is its failure. If any key fails: no call, and `submitting` unchanged. Otherwise `submitting` becomes true, and the callback, if given, is called with the current values. Values and `submitted` never change. |
| Submission.Settle | src/index.tsx:140-142 | The `finally` step sets `submitting` false and changes nothing else. |
| Submission.Reset | src/index.tsx:129-134 | Reset empties values, errors and touched and sets `submitting` false, whatever the store held. `submitted` is left as it was. |
| Submission.SetError | src/index.tsx:135-137 | `setError` stores a plain message under its own key only. The other errors, values, touched and flags do not change. |
| Submission.ApplyUtils | src/index.tsx:128-138 | The callback's utilities never set `submitting` and never write `submitted`. `submitting` ends true exactly when it was true and `reset` was not called. Without a `reset`, values and touched are as they were; after one, both are empty. When the last call is `setError(key, message)`, `key` then holds that message. |
| Submission.Attempt | src/index.tsx:123-143 | In one full submit attempt the callback runs at most once. If a field fails: no call, and `submitting` unchanged. If all pass and there is a callback: one call with the values. `submitting` ends false when the call resolves or rejects. After a synchronous throw it stays true unless the callback called `reset`. Without a callback `submitting` stays true. |
| Submission.AttemptFinalized | src/index.tsx:123-143 | The same attempt with the `finally` step covering a synchronous throw as well: a passing attempt with a callback always ends with `submitting` false. |
| Submission.FinalizedAgreesUnlessThrown | src/index.tsx:140-142 | For a callback that resolves or rejects, the code's attempt and the finalized attempt give the same result. |
| Submission.ThrowingCallbackLeavesSubmitting | src/index.tsx:140-142 | A passing submit whose callback throws synchronously, without calling `reset`, leaves `submitting` true. The finalized attempt clears it. |
| Submission.SubmitTouchesAll | src/index.tsx:120 | After submit, the touched keys are the schema keys in schema order and every one reads `true`, whatever was blurred before. |
| Submission.SubmitDropsSubmissionError | src/index.tsx:106-121 | A previous `submission` message does not survive a submit unless `submission` is a schema key. |
| Submission.NoSingleFlight | src/index.tsx:103-127 | A submit during an in-flight submit calls the callback again. Nothing guards against overlap. |
| Submission.ResetForgetsHistory | src/index.tsx:129-134 | Two stores that agree on `submitted` reset to the same store. |
| Submission.ResetIgnoresDefaults | src/index.tsx:80 | Resetting a form created with defaults does not restore them. |
| ErrorViews.FieldErrorView | src/index.tsx:409-429 | A field's error view renders exactly when its error is truthy and the field is touched. A message shows verbatim; a failure shows its messages joined with `", "`. |
| ErrorViews.ValidChangeHidesError | src/index.tsx:378-388 | A change that validates hides that field's error view. |
| ErrorViews.InvalidChangeShowsError | src/index.tsx:383-387 | On a touched field, a change that fails shows the failure's joined messages. |
| ErrorViews.SubmitSlot | src/index.tsx:106-121 | After submit each schema key is touched and holds the error slot its own validation produced. |
| ErrorViews.SubmitErrorViews | src/index.tsx:106-121 | After submit, each field's view shows its own joined failure messages, or nothing when the field is valid. |
| ErrorViews.ToggleKeepsErrorViews | src/index.tsx:344-348 | A checkbox change leaves every field's error view as it was. |
| ErrorViews.EmptyMessageHidden | src/index.tsx:413 | `setError(key, "")` renders nothing, because the empty string is falsy. |
| ErrorViews.SubmissionView | src/index.tsx:472-484 | The submission view renders exactly when some errors entry is not `undefined` and touched equals `ALL_TOUCHED`, property order included. It shows `errors.submission`. |
| ErrorViews.SubmissionViewIgnoresSubmitted | src/index.tsx:475-477 | The `submitted` flag makes no difference to the submission view. |
| ErrorViews.BlockedSubmitShowsSubmissionView | src/index.tsx:120-124 | After a blocked submit the submission view renders. |
| ErrorViews.CallbackMessageShown | src/index.tsx:135-142 | A `submission` message set by the callback after a passing submit renders verbatim, both before and after settling. The same holds at the end of a whole attempt whose callback only calls `setError("submission", message)` and resolves. |
| ErrorViews.SubmissionViewOrderSensitive | src/index.tsx:479 | Blurring `b` and then `a` after a reset touches every key of `{a, b}`, yet the submission view stays hidden. |
| ErrorViews.SubmitButton | src/index.tsx:199-211 | The button is busy exactly while submitting. It is disabled exactly while submitting or when its own prop disables it. |
| ErrorViews.ButtonFollowsSubmission | src/index.tsx:206 | A passing submit disables the button. Settle and reset enable it again. |
| Namespaces.OptionEntries | src/index.tsx:228-230 | Option sub-entries exist exactly when every option is non-empty and, for a select built outside a render (301-304), there are no options. Each option is capitalised before the store is read, so the first option decides which throw happens. Entries are named by the capitalised options, and each maps back to an option with that name. |
| Namespaces.FieldEntry | src/index.tsx:218-304 | One turn of the construction loop succeeds exactly when the key and its options are non-empty and, outside a render, the field is not a select with literals. With non-empty names the throw is the hook call; with no hook call it is the capitalisation. On success the entry is named by the capitalised key, bound to the key, and carries that field's option sub-entries. |
| Namespaces.FieldEntries | src/index.tsx:218-304 | Building the field entries throws exactly when a key or option is empty, or when a select with literals is built outside a render. Otherwise there is one entry per capitalised key, each bound to a schema key whose capitalisation is its name. |
| Namespaces.Build | src/index.tsx:218-472 | Building throws under the same conditions as the field entries. Otherwise `Form.Field` holds one entry per capitalised key. `Form.Error` holds those names plus `Submission`: `Submission` is always the submission view, and every other name is the error view of the key its field entry is bound to. |
| Namespaces.SelectNeedsRender | src/index.tsx:301-304 | A form with a select that has literals throws the hook error when built outside a render, and builds inside one. |
| Namespaces.OptionEntriesLastWins | src/index.tsx:228-230 | Options of the same name overwrite each other in order: a name is bound to the last option that has it. |
| Namespaces.FieldEntriesStep | src/index.tsx:218-220 | One more field binds its own name and leaves every other name's binding as it was. |
| Namespaces.FieldEntriesLastWins | src/index.tsx:218-220 | Fields of the same name overwrite each other in order: a name is bound to the key of the last field that has it, and holds exactly that field's entry, option sub-entries included. |
| Namespaces.BuildBindsLastField | src/index.tsx:218-306 | In the built facade, `Form.Field.<Name>` of the last field with that name is bound to its key and carries its option sub-entries. |
| Namespaces.CollidingKeysLastWins | src/index.tsx:218-220 | For the keys `name` then `Name`, `Form.Field` has the single entry `Name`, bound to the later key `Name`. |
| Namespaces.FieldEntriesResolve | src/index.tsx:218-220 | When no two keys capitalise alike, each field's name resolves to that field. |
| Namespaces.BuildResolves | src/index.tsx:399-409 | When no two keys capitalise alike, `Form.Field.<Name>` is that key's binding. `Form.Error.<Name>` is its error view unless the name is `Submission`. |
| Namespaces.SubmissionKeyShadowed | src/index.tsx:472 | A schema key `submission` gets a field entry, but its error view is replaced by the submission view. |
| Machine.InitWellFormed | src/index.tsx:80-84 | A new store whose defaults name schema keys only is well formed. |
| Machine.StepWellFormed | src/index.tsx:71-82 | Every enabled action keeps values and touched within the schema keys, and errors within those keys plus `submission`. Touched stays a proper object whose flags are all `true`. |
| Machine.RunWellFormed | src/index.tsx:71-82 | Any run of enabled actions keeps the store well formed. |
| Machine.SubmittedNeverWritten | src/index.tsx:83 | No run of actions changes `submitted`. |
| Machine.UntouchedUntilBlurOrSubmit | src/index.tsx:259-261 | A field that is not touched stays so until it is blurred or a submit happens. |
| Machine.TouchedStaysUntilReset | src/index.tsx:120 | A touched schema field stays touched under every action except reset. Submit rewrites touched as `ALL_TOUCHED`, which keeps every schema key `true`; blur (389-391) only writes `true`; no other action writes touched. |
| Machine.TouchedStaysWithoutReset | src/index.tsx:129-134 | Over any run with no reset, a touched schema field stays touched, so reset is the only way to clear a touched flag. |
| Machine.EndsIdle | src/index.tsx:140-142 | A run that ends with a settle or a reset leaves nothing submitting. |
| Scenarios.EmptySignupIsBlocked | src/index.tsx:103-124 | Submitting an empty `{name, subscribe}` form calls nothing. It shows the `name` error and the submission view. |
| Scenarios.FilledSignupSubmits | src/index.tsx:123-141 | After typing `Ada` and ticking the checkbox, the callback receives exactly `{name: "Ada", subscribe: true}`, and no field error shows. |
| Scenarios.PickThenSubmit | src/index.tsx:248-258 | With nothing picked, a required radio group blocks submit. Picking `b` lets the submit through with `b`. |

## Findings

| source | as written | input that shows it | evidently intended | confidence | as-written member | corrected member |
|---|---|---|---|---|---|---|
| src/index.tsx:140-142 | The callback is called while the argument of `Promise.resolve` is evaluated, so a synchronous throw leaves the handler before `finally` is attached, after `submitting` was set true at line 126. | A form whose fields all validate, and a callback that throws before returning without calling `reset` (the declared type at line 10 allows a non-async callback). | The `finally` step runs on every exit of the callback, so `submitting` returns to false and the submit button is enabled again. | high; not executed | Submission.Attempt, Submission.ThrowingCallbackLeavesSubmitting | Submission.AttemptFinalized |

## Left out

- Rendering. The JSX, the pass-through props, the aria attributes, the
  `className` trimming, the `displayName`s and the injectable
  `Input`/`Select`/`Option`/`Error`/`Submit` components are presentation only.
  The `required` / `aria-required` hint is the only use of the schema's
  optionality flag, so the model has no optionality flag. Whether `undefined`
  is accepted is the validator's business.
- The jotai runtime. The five atoms are the fields of one immutable `Store`.
  Subscriptions and re-renders are not modelled. `useValue` is the same read
  as `getValue`.
- The `onMount` hook that installs `setValue` / `getValue`. Here they are
  always available; calling them before mount fails in the real code.
- The schema library. `safeParse` is the abstract validator. The `instanceof`
  dispatch becomes the `Kind` each field carries. Option lists are plain
  string sequences.
- Promise mechanics. Settling is its own transition (`Submission.Settle`,
  `Machine.Settled`). `Submission.Attempt` runs the callback's utility calls
  before the `finally` step; other interleavings are runs of the machine. A
  synchronous throw is modelled only by its effect on the store: the throw
  itself, which leaves the submit handler, and the unhandled rejection that
  `finally` passes on for a rejecting callback are not.
- The callback's data. Both the validation at src/index.tsx:110 and the
  callback's argument at line 141 read the values captured when the form
  last rendered; the model uses the store's values at the submit event,
  which are the same in a sequential run.
- Seeding a select's value from the DOM on first mount (src/index.tsx:272-276).
  It is DOM input.
- The select's option sub-components (src/index.tsx:301-318). Their names are
  modelled by `Namespaces.OptionEntries`, and the store read at line 304 by
  the hook throw of `Namespaces.Build`. That read runs while `ozef` builds
  the namespaces, not while an option renders; the value it reads only feeds
  `aria-selected`, which is presentation and not a real comparison.
- Namespaces.Build: when `ozef` is called inside a render, the hook call is
  taken to succeed. What React does with hooks called in a different number
  or order on later renders is not modelled.
- The checkbox's rendered `checked` / `value` attributes.
- Inherited properties. A JavaScript property read follows the prototype
  chain, so a key naming an `Object.prototype` member (`constructor`,
  `toString`, `valueOf`, `hasOwnProperty`, ...) reads an inherited function
  where the model reads `undefined`. The lines below name what this changes;
  schemas with such keys are outside the model.
- FieldBindings.OnChange: a checkbox whose key names an `Object.prototype`
  member and holds no own value negates the inherited function and stores
  `false`; the model stores `true`.
- FieldBindings.GetValue: for such a key with no own value, `getValue`
  returns the inherited function; the model returns `undefined`.
- Submission.ValidateAll: for such a key with no own value, the validator
  receives the inherited function; the model passes `undefined`.
- Submission.Submit: inherits the `ValidateAll` difference, so for such a key
  the gate can decide otherwise than in the model.
- ErrorViews.FieldErrorView: for such a key on a fresh store, the inherited
  error and touched values are truthy and rendering the view throws; the
  model renders nothing.
- The order of the callback's data. `values` is a map, so the property order
  of the object the callback receives (src/index.tsx:141) is not modelled;
  only its keys and values are.
- JsObject.Put: JavaScript lists integer-like property names (such as `"1"`)
  first, in ascending order. The model appends every new key, so it is exact
  only for keys that are not integer-like.
- FieldBindings.OnBlur: for the same reason, the contract appends a newly
  touched key at the end of touched, whereas JavaScript places an
  integer-like key before the others.
- Text.Capitalize: `toUpperCase` is modelled for ASCII letters only. Other
  characters are kept as they are, although JavaScript also upper-cases
  non-ASCII letters and expands some (for example `ß` becomes `SS`).
- FieldBindings.SetValue: a value of `undefined` cannot be written, because
  `Raw` has no such case.
- FormStore.Truthy: `NaN` is falsy in JavaScript but cannot occur, because
  numbers are modelled as integers.
- The type-level `CapitalizeKeys` machinery. It has no run-time behaviour.
- src/App.tsx (a demo), configs/rollup.config.mjs (build configuration) and
  test/core.test.tsx (a render smoke test) are not part of this model.

=== FILE: error_views.dfy ===
/**
 What the generated `Form.Error.*` views and the submit button show for a
 given store. Each view is a pure function of the store.
 */
module ErrorViews {
  import opened Results
  import opened JsObject
  import opened Text
  import opened Schema
  import opened FormStore
  import opened FieldBindings
  import opened Submission

  /**
   `errors[key] && touched[key]`: the condition under which a field's error
   view renders and its control receives the `errorful` flag.
   */
  predicate HasError(s: Store, key: Key) {
    ErrorTruthy(Get(s.errors, key)) && IsTouched(s, key)
  }

  /** The text shown for an error: a message verbatim, a failure's messages joined with ", ". */
  function ErrorText(e: ErrorSlot): string {
    match e
    case Undefined => ""
    case Issues(msgs) => Join(msgs, ", ")
    case Message(t) => t
  }

  /** The field error view for `key`: the text it renders, or `None` when it renders nothing. */
  function FieldErrorView(s: Store, key: Key): (r: Option<string>)
    ensures r.Some? <==> key in s.errors && IsTouched(s, key) && ErrorTruthy(Some(s.errors[key]))
    ensures r.Some? && s.errors[key].Message? ==> r.value == s.errors[key].text
    ensures r.Some? && s.errors[key].Issues? ==> r.value == Join(s.errors[key].messages, ", ")
  {
    if HasError(s, key) then Some(ErrorText(s.errors[key])) else None
  }

  /** A successful change of a text, number, radio or select field hides that field's error view. */
  lemma ValidChangeHidesError(form: Form, s: Store, key: Key, input: string)
    requires key in KeySet(form) && !FieldOf(form, key).value.kind.Boolean?
    requires form.validate(key, Some(Str(input))).Valid?
    ensures FieldErrorView(OnChange(form, s, key, input), key).None?
  {
  }

  /** A failing change shows the failure's messages once the field has been touched. */
  lemma InvalidChangeShowsError(form: Form, s: Store, key: Key, input: string)
    requires key in KeySet(form) && !FieldOf(form, key).value.kind.Boolean?
    requires form.validate(key, Some(Str(input))).Invalid?
    requires IsTouched(s, key)
    ensures FieldErrorView(OnChange(form, s, key, input), key) ==
            Some(Join(form.validate(key, Some(Str(input))).messages, ", "))
  {
  }

  /** After a submit a schema key is touched and holds its own validation's error slot. */
  lemma SubmitSlot(form: Form, s: Store, hasCallback: bool, key: Key)
    requires ValidForm(form) && key in KeySet(form)
    ensures var r := Submit(form, s, hasCallback).store;
            && IsTouched(r, key)
            && key in r.errors
            && r.errors[key] == ErrorOf(form.validate(key, Get(s.values, key)))
  {
    SubmitTouchesAll(form, s, hasCallback);
  }

  /** After a submit, every failing field shows its joined messages and every passing field shows nothing. */
  lemma SubmitErrorViews(form: Form, s: Store, hasCallback: bool, key: Key)
    requires ValidForm(form) && key in KeySet(form)
    ensures var v := form.validate(key, Get(s.values, key));
            FieldErrorView(Submit(form, s, hasCallback).store, key) ==
            if v.Valid? then None else Some(Join(v.messages, ", "))
  {
    var r := Submit(form, s, hasCallback).store;
    SubmitSlot(form, s, hasCallback, key);
    assert HasError(r, key) <==> form.validate(key, Get(s.values, key)).Invalid?;
  }

  /** A checkbox change leaves every field's error view as it was. */
  lemma ToggleKeepsErrorViews(form: Form, s: Store, key: Key, other: Key)
    requires key in KeySet(form) && FieldOf(form, key).value.kind.Boolean?
    ensures FieldErrorView(OnChange(form, s, key, ""), other) == FieldErrorView(s, other)
  {
  }

  /** `setError(key, "")` stores an empty message, which is falsy, so nothing renders. */
  lemma EmptyMessageHidden(s: Store, key: Key)
    ensures FieldErrorView(SetError(s, key, ""), key).None?
  {
  }

  /**
   `Form.Error.Submission`: renders `errors.submission` when some errors
   entry is not `undefined` and the touched record serialises like
   `ALL_TOUCHED`. The `submitted` conjunct reads the tuple `useAtom`
   returns, which is always truthy, so the flag plays no part.
   */
  function SubmissionView(form: Form, s: Store): (r: Option<ErrorSlot>)
    ensures r.Some? <==> AnyError(s.errors) && s.touched == AllTouched(form)
    ensures r.Some? ==> (SubmissionKey in s.errors ==> r.value == s.errors[SubmissionKey])
    ensures r.Some? ==> (SubmissionKey !in s.errors ==> r.value == Undefined)
  {
    if AnyError(s.errors) && s.touched == AllTouched(form) then
      Some(Get(s.errors, SubmissionKey).OrElse(Undefined))
    else None
  }

  /** The submission view is the same whether or not `submitted` is set. */
  lemma SubmissionViewIgnoresSubmitted(form: Form, s: Store, b: bool)
    ensures SubmissionView(form, s.(submitted := b)) == SubmissionView(form, s)
  {
  }

  /** A blocked submit makes the submission view render, since every key is now touched. */
  lemma BlockedSubmitShowsSubmissionView(form: Form, s: Store, hasCallback: bool)
    requires SomeFieldFails(form, s.values)
    ensures SubmissionView(form, Submit(form, s, hasCallback).store).Some?
  {
  }

  /**
   A message the callback stores under `submission` after a passing submit
   renders verbatim, before and after the attempt settles, also when the
   whole attempt runs with a callback that does just that.
   */
  lemma CallbackMessageShown(form: Form, s: Store, message: string)
    requires !SomeFieldFails(form, s.values)
    ensures var after := SetError(Submit(form, s, true).store, SubmissionKey, message);
            && SubmissionView(form, after) == Some(Message(message))
            && SubmissionView(form, Settle(after)) == Some(Message(message))
    ensures var cb := Callback([SetErrorCall(SubmissionKey, message)], Resolves);
            SubmissionView(form, Attempt(form, s, Some(cb)).store) == Some(Message(message))
  {
  }

  /** The schema `{ a: text, b: text }`, accepting everything. */
  function PairForm(): (form: Form)
    ensures Keys(form) == ["a", "b"] && KeySet(form) == {"a", "b"} && ValidForm(form)
  {
    var form := Form([Field("a", Text), Field("b", Text)], (k, v) => Valid);
    assert Keys(form) == ["a", "b"];
    form
  }

  /**
   The touched comparison is by serialisation, so property order counts: a
   callback that calls `reset` and then `setError("submission", ...)`, followed
   by blurs of `b` and then `a`, leaves every key touched and an error
   present, yet the submission view stays hidden.
   */
  lemma SubmissionViewOrderSensitive()
    ensures var form := PairForm();
            var s := Reset(Store(map[], map[], [], true, false));
            var blurred := OnBlur(form, OnBlur(form, SetError(s, SubmissionKey, "down"), "b"), "a");
            && IsTouched(blurred, "a") && IsTouched(blurred, "b")
            && SubmissionView(form, blurred).None?
  {
    var form := PairForm();
    AllTouchedShape(form);
    var s := Reset(Store(map[], map[], [], true, false));
    var blurred := OnBlur(form, OnBlur(form, SetError(s, SubmissionKey, "down"), "b"), "a");
    assert KeyList(blurred.touched) == ["b", "a"];
  }

  /** The submit button's state: disabled while submitting or when its own prop says so. */
  datatype Button = Button(disabled: bool, busy: bool)

  function SubmitButton(s: Store, disabledProp: bool): (b: Button)
    ensures b.busy <==> s.submitting
    ensures b.disabled <==> s.submitting || disabledProp
  {
    Button(s.submitting || disabledProp, s.submitting)
  }

  /**
   A submit that passes validation disables the button; settling or
   resetting re-enables it unless its own prop disables it.
   */
  lemma ButtonFollowsSubmission(form: Form, s: Store, hasCallback: bool)
    requires !SomeFieldFails(form, s.values)
    ensures SubmitButton(Submit(form, s, hasCallback).store, false).disabled
    ensures !SubmitButton(Settle(Submit(form, s, hasCallback).store), false).disabled
    ensures !SubmitButton(Reset(Submit(form, s, hasCallback).store), false).disabled
  {
  }
}

=== FILE: field_bindings.dfy ===
/**
 The handlers each generated field binding attaches to its control, and the
 post-mount `setValue` / `getValue` pair. Which handlers exist depends on the
 field's kind.
 */
module FieldBindings {
  import opened Results
  import opened JsObject
  import opened Schema
  import opened FormStore

  /**
   The control's `onChange`. A checkbox (`Boolean`) ignores the event and
   stores the negation of the current value's truthiness, leaving errors
   alone. Every other kind stores the event's string value (a radio's is its
   own option) and records the validation outcome for that key.
   */
  function OnChange(form: Form, s: Store, key: Key, input: string): (r: Store)
    requires key in KeySet(form)
    ensures r.touched == s.touched && r.submitting == s.submitting && r.submitted == s.submitted
    ensures r.values.Keys == s.values.Keys + {key}
    ensures forall k :: k != key ==> Get(r.values, k) == Get(s.values, k)
    ensures FieldOf(form, key).value.kind.Boolean? ==>
              && r.values[key] == Bool(!Truthy(Get(s.values, key)))
              && r.errors == s.errors
    ensures !FieldOf(form, key).value.kind.Boolean? ==>
              && r.values[key] == Str(input)
              && r.errors.Keys == s.errors.Keys + {key}
              && (r.errors[key] == Undefined <==> form.validate(key, Some(Str(input))).Valid?)
              && (form.validate(key, Some(Str(input))).Invalid? ==>
                    r.errors[key] == Issues(form.validate(key, Some(Str(input))).messages))
              && forall k :: k != key ==> Get(r.errors, k) == Get(s.errors, k)
  {
    match FieldOf(form, key).value.kind
    case Boolean =>
      s.(values := s.values[key := Bool(!Truthy(Get(s.values, key)))])
    case _ =>
      var raw := Str(input);
      s.(values := s.values[key := raw],
         errors := s.errors[key := ErrorOf(form.validate(key, Some(raw)))])
  }

  /**
   The control's `onBlur`: marks the key touched. A select (`Union`) has no
   blur handler, so blurring it changes nothing.
   */
  function OnBlur(form: Form, s: Store, key: Key): (r: Store)
    requires key in KeySet(form)
    ensures r.values == s.values && r.errors == s.errors
    ensures r.submitting == s.submitting && r.submitted == s.submitted
    ensures FieldOf(form, key).value.kind.Union? ==> r.touched == s.touched
    ensures !FieldOf(form, key).value.kind.Union? ==>
              && IsTouched(r, key)
              && (forall k :: k != key ==> Lookup(r.touched, k) == Lookup(s.touched, k))
              && (HasKey(s.touched, key) ==> KeyList(r.touched) == KeyList(s.touched))
              && (!HasKey(s.touched, key) ==> KeyList(r.touched) == KeyList(s.touched) + [key])
  {
    if FieldOf(form, key).value.kind.Union? then s
    else
      var t := Put(s.touched, key, true);
      assert !HasKey(s.touched, key) ==> KeyList(t) == KeyList(s.touched) + [key];
      s.(touched := t)
  }

  /** The post-mount `setValue`: writes the raw value for one key, bypassing validation. */
  function SetValue(s: Store, key: Key, v: Raw): (r: Store)
    ensures Get(r.values, key) == Some(v)
    ensures forall k :: k != key ==> Get(r.values, k) == Get(s.values, k)
    ensures r.values.Keys == s.values.Keys + {key}
    ensures r.errors == s.errors && r.touched == s.touched
    ensures r.submitting == s.submitting && r.submitted == s.submitted
  {
    s.(values := s.values[key := v])
  }

  /**
   The post-mount `getValue` (and the `useValue` hook): the raw value held
   for `key`, `undefined` when none. Reading leaves the store as it was, so
   it is a query rather than a transition.
   */
  function GetValue(s: Store, key: Key): (v: Option<Raw>)
    ensures v.Some? <==> key in s.values
    ensures v.Some? ==> s.values[key] == v.value
  {
    Get(s.values, key)
  }

  /** `getValue` after `setValue` on the same key yields the value written; other keys are unaffected. */
  lemma GetAfterSet(s: Store, key: Key, other: Key, v: Raw)
    ensures GetValue(SetValue(s, key, v), key) == Some(v)
    ensures other != key ==> GetValue(SetValue(s, key, v), other) == GetValue(s, other)
  {
  }

  /** `setValue` with the value already held is a no-op. */
  lemma SetCurrentValue(s: Store, key: Key)
    requires key in s.values
    ensures SetValue(s, key, GetValue(s, key).value) == s
  {
    assert s.values[key := s.values[key]] == s.values;
  }

  /** A radio sub-binding renders checked iff the field's value is that option. */
  predicate RadioChecked(s: Store, key: Key, option: string) {
    Get(s.values, key) == Some(Str(option))
  }

  /** Picking a radio option leaves exactly that option of the group checked. */
  lemma PickRadioChecksOnlyIt(form: Form, s: Store, key: Key, option: string, other: string)
    requires FieldOf(form, key).Some? && FieldOf(form, key).value.kind.Enum?
    requires option in FieldOf(form, key).value.kind.options
    ensures RadioChecked(OnChange(form, s, key, option), key, other) <==> other == option
  {
  }

  /** Toggling a checkbox twice from a boolean value restores it. */
  lemma ToggleTwice(form: Form, s: Store, key: Key)
    requires FieldOf(form, key).Some? && FieldOf(form, key).value.kind.Boolean?
    requires key in s.values && s.values[key].Bool?
    ensures OnChange(form, OnChange(form, s, key, ""), key, "").values == s.values
  {
    var r := OnChange(form, OnChange(form, s, key, ""), key, "");
    assert r.values[key] == s.values[key];
    assert forall k :: k in r.values <==> k in s.values;
  }
}

=== FILE: js_object.dfy ===
/**
 A plain JavaScript object with string keys, kept as its ordered list of
 entries. Property order matters wherever an object is serialised, so the
 spread-and-assign update `{ ...prev, [key]: value }` is modelled exactly:
 an existing key keeps its position, a new key goes to the end.
 */
module JsObject {
  import opened Results

  type Entries<V> = seq<(string, V)>

  /** The keys in property order (`Object.keys`). */
  function KeyList<V>(o: Entries<V>): (ks: seq<string>)
    ensures |ks| == |o|
    ensures forall i :: 0 <= i < |o| ==> ks[i] == o[i].0
  {
    seq(|o|, i requires 0 <= i < |o| => o[i].0)
  }

  /** A real object never holds the same property twice. */
  predicate DistinctKeys<V>(o: Entries<V>) {
    forall i, j :: 0 <= i < j < |o| ==> o[i].0 != o[j].0
  }

  predicate HasKey<V>(o: Entries<V>, k: string) {
    exists i :: 0 <= i < |o| && o[i].0 == k
  }

  /** Position of the first entry named `k`. */
  function IndexOf<V>(o: Entries<V>, k: string): (r: Option<nat>)
    ensures r.None? <==> !HasKey(o, k)
    ensures r.Some? ==> r.value < |o| && o[r.value].0 == k
    ensures r.Some? ==> forall j :: 0 <= j < r.value ==> o[j].0 != k
  {
    if o == [] then None
    else if o[0].0 == k then Some(0)
    else
      match IndexOf(o[1..], k)
      case None =>
        assert forall i :: 1 <= i < |o| ==> o[i] == o[1..][i - 1];
        None
      case Some(i) => Some(i + 1)
  }

  /**
   Property read `o[k]` of an own property: the value stored under `k`, else
   `undefined`. Properties inherited from `Object.prototype` are not modelled.
   */
  function Lookup<V>(o: Entries<V>, k: string): (r: Option<V>)
    ensures r.Some? <==> HasKey(o, k)
  {
    match IndexOf(o, k)
    case None => None
    case Some(i) => Some(o[i].1)
  }

  /**
   The update `{ ...o, [k]: v }`: overwrite in place when `k` is already a
   property, append otherwise.
   */
  function Put<V>(o: Entries<V>, k: string, v: V): (r: Entries<V>)
    ensures Lookup(r, k) == Some(v)
    ensures forall k' :: k' != k ==> Lookup(r, k') == Lookup(o, k')
    ensures !HasKey(o, k) ==> r == o + [(k, v)]
    ensures HasKey(o, k) ==> KeyList(r) == KeyList(o)
    ensures DistinctKeys(o) ==> DistinctKeys(r)
  {
    match IndexOf(o, k)
    case None =>
      var r := o + [(k, v)];
      assert forall j :: 0 <= j < |o| ==> r[j] == o[j];
      IndexOfAt(r, k, |o|);
      forall k' | k' != k
        ensures IndexOf(r, k') == IndexOf(o, k')
      {
        if HasKey(o, k') {
          IndexOfAt(r, k', IndexOf(o, k').value);
        } else {
          assert !HasKey(r, k');
        }
      }
      r
    case Some(i) =>
      var r := o[i := (k, v)];
      IndexOfAt(r, k, i);
      forall k' | k' != k
        ensures IndexOf(r, k') == IndexOf(o, k')
      {
        if HasKey(o, k') {
          IndexOfAt(r, k', IndexOf(o, k').value);
        } else {
          assert !HasKey(r, k');
        }
      }
      r
  }

  /** `IndexOf` is pinned down by its contract: the first position holding `k`. */
  lemma IndexOfAt<V>(o: Entries<V>, k: string, i: nat)
    requires i < |o| && o[i].0 == k
    requires forall j :: 0 <= j < i ==> o[j].0 != k
    ensures IndexOf(o, k) == Some(i)
  {
  }

  /** In an object with distinct keys, each entry's key reads that entry's value. */
  lemma LookupAt<V>(o: Entries<V>, i: nat)
    requires DistinctKeys(o) && i < |o|
    ensures Lookup(o, o[i].0) == Some(o[i].1)
  {
    IndexOfAt(o, o[i].0, i);
  }

  /** Appending an entry adds exactly its key. */
  lemma HasKeyAppend<V>(o: Entries<V>, k: string, v: V, x: string)
    ensures HasKey(o + [(k, v)], x) <==> HasKey(o, x) || x == k
  {
    var r := o + [(k, v)];
    if HasKey(r, x) && x != k {
      var j :| 0 <= j < |r| && r[j].0 == x;
      assert j < |o| && o[j] == r[j];
    }
    if HasKey(o, x) {
      var j :| 0 <= j < |o| && o[j].0 == x;
      assert r[j] == o[j];
    }
    if x == k {
      assert r[|o|].0 == x;
    }
  }
}

=== FILE: machine.dfy ===
/**
 The form as a state machine: every interaction the engine reacts to is an
 action, and a run applies a sequence of them to the store in order. Async
 settling is its own action, so a callback's `finally` may come after any
 number of other interactions.
 */
module Machine {
  import opened Results
  import opened JsObject
  import opened Schema
  import opened FormStore
  import opened FieldBindings
  import opened Submission

  datatype Action =
    | Change(key: Key, input: string)
    | Blur(key: Key)
    | SubmitEvent(withCallback: bool)
    | Settled
    | ResetAll
    | InjectError(key: Key, message: string)
    | Assign(key: Key, value: Raw)

  /**
   Which actions exist for this form: handlers and `setValue` only for schema
   keys, `setError` for schema keys and the reserved `submission` key.
   */
  predicate Enabled(form: Form, a: Action) {
    match a
    case Change(k, _) => k in KeySet(form)
    case Blur(k) => k in KeySet(form)
    case InjectError(k, _) => k in KeySet(form) || k == SubmissionKey
    case Assign(k, _) => k in KeySet(form)
    case _ => true
  }

  function Step(form: Form, s: Store, a: Action): Store
    requires Enabled(form, a)
  {
    match a
    case Change(k, input) => OnChange(form, s, k, input)
    case Blur(k) => OnBlur(form, s, k)
    case SubmitEvent(cb) => Submit(form, s, cb).store
    case Settled => Settle(s)
    case ResetAll => Reset(s)
    case InjectError(k, m) => SetError(s, k, m)
    case Assign(k, v) => SetValue(s, k, v)
  }

  predicate AllEnabled(form: Form, trace: seq<Action>) {
    forall i :: 0 <= i < |trace| ==> Enabled(form, trace[i])
  }

  function Run(form: Form, s: Store, trace: seq<Action>): Store
    requires AllEnabled(form, trace)
    decreases |trace|
  {
    if trace == [] then s
    else
      assert Enabled(form, trace[0]);
      Run(form, Step(form, s, trace[0]), trace[1..])
  }

  /**
   The store's shape invariant: values and touched flags only for schema
   keys, errors for schema keys and `submission`, touched a proper object
   whose every flag is `true`.
   */
  ghost predicate WellFormed(form: Form, s: Store) {
    && s.values.Keys <= KeySet(form)
    && s.errors.Keys <= KeySet(form) + {SubmissionKey}
    && DistinctKeys(s.touched)
    && forall k :: Lookup(s.touched, k).Some? ==> k in KeySet(form) && Lookup(s.touched, k) == Some(true)
  }

  /** A freshly created store is well formed when its defaults name schema keys only. */
  lemma InitWellFormed(form: Form, defaults: map<Key, Raw>)
    requires defaults.Keys <= KeySet(form)
    ensures WellFormed(form, Init(defaults))
  {
  }

  /** Every action keeps the store well formed. */
  lemma StepWellFormed(form: Form, s: Store, a: Action)
    requires ValidForm(form) && WellFormed(form, s) && Enabled(form, a)
    ensures WellFormed(form, Step(form, s, a))
  {
    if a.SubmitEvent? {
      AllTouchedShape(form);
    }
  }

  /** Any run of enabled actions keeps the store well formed. */
  lemma {:induction false} RunWellFormed(form: Form, s: Store, trace: seq<Action>)
    requires ValidForm(form) && WellFormed(form, s) && AllEnabled(form, trace)
    ensures WellFormed(form, Run(form, s, trace))
    decreases |trace|
  {
    if trace != [] {
      StepWellFormed(form, s, trace[0]);
      RunWellFormed(form, Step(form, s, trace[0]), trace[1..]);
    }
  }

  /** No action writes `submitted`: it keeps its initial value forever. */
  lemma {:induction false} SubmittedNeverWritten(form: Form, s: Store, trace: seq<Action>)
    requires AllEnabled(form, trace)
    ensures Run(form, s, trace).submitted == s.submitted
    decreases |trace|
  {
    if trace != [] {
      SubmittedNeverWritten(form, Step(form, s, trace[0]), trace[1..]);
    }
  }

  /** Whether an action can mark `key` touched. */
  predicate Touches(a: Action, key: Key) {
    a == Blur(key) || a.SubmitEvent?
  }

  /** A field stays untouched until it is blurred or a submit happens. */
  lemma {:induction false} UntouchedUntilBlurOrSubmit(form: Form, s: Store, trace: seq<Action>, key: Key)
    requires AllEnabled(form, trace)
    requires forall i :: 0 <= i < |trace| ==> !Touches(trace[i], key)
    requires !IsTouched(s, key)
    ensures !IsTouched(Run(form, s, trace), key)
    decreases |trace|
  {
    if trace != [] {
      assert !Touches(trace[0], key);
      UntouchedUntilBlurOrSubmit(form, Step(form, s, trace[0]), trace[1..], key);
    }
  }

  /** A touched field stays touched under every action but reset. */
  lemma TouchedStaysUntilReset(form: Form, s: Store, a: Action, key: Key)
    requires ValidForm(form) && Enabled(form, a) && key in KeySet(form)
    requires IsTouched(s, key) && a != ResetAll
    ensures IsTouched(Step(form, s, a), key)
  {
    if a.SubmitEvent? {
      AllTouchedShape(form);
    }
  }

  /** Touched flags are never cleared by a run without a reset. */
  lemma {:induction false} TouchedStaysWithoutReset(form: Form, s: Store, trace: seq<Action>, key: Key)
    requires ValidForm(form) && AllEnabled(form, trace) && key in KeySet(form)
    requires forall i :: 0 <= i < |trace| ==> trace[i] != ResetAll
    requires IsTouched(s, key)
    ensures IsTouched(Run(form, s, trace), key)
    decreases |trace|
  {
    if trace != [] {
      TouchedStaysUntilReset(form, s, trace[0], key);
      TouchedStaysWithoutReset(form, Step(form, s, trace[0]), trace[1..], key);
    }
  }

  /** Once a run ends in a settle or a reset, nothing is submitting. */
  lemma {:induction false} EndsIdle(form: Form, s: Store, trace: seq<Action>)
    requires AllEnabled(form, trace) && trace != []
    requires trace[|trace| - 1] == Settled || trace[|trace| - 1] == ResetAll
    ensures !Run(form, s, trace).submitting
    decreases |trace|
  {
    if |trace| > 1 {
      EndsIdle(form, Step(form, s, trace[0]), trace[1..]);
    }
  }
}

=== FILE: namespaces.dfy ===
/**
 The generated component namespaces: `Form.Field.<Name>` (with one
 `<Option>` sub-entry per radio or select option) and `Form.Error.<Name>`
 plus `Form.Error.Submission`. Names are keys with the first letter
 upper-cased; building them throws when a key or option is empty, and when a
 select reads the store with a hook while no component is rendering.
 */
module Namespaces {
  import opened Results
  import opened Text
  import opened Schema

  /** A field's entry: the key it is bound to and its option sub-entries (name to option value). */
  datatype Binding = Binding(key: Key, options: map<string, string>)

  /** An error view entry: a field's error view, or the form-wide submission view. */
  datatype ErrorEntry = FieldError(key: Key) | SubmissionError

  datatype Facade = Facade(fields: map<string, Binding>, errors: map<string, ErrorEntry>)

  /**
   What building the namespaces throws: `key[0]!.toUpperCase()` on an empty
   key or option, or React refusing a hook called outside a render.
   */
  datatype Thrown = NoFirstLetter | InvalidHookCall

  /** The option values a kind renders as sub-entries. */
  function OptionsOf(kind: Kind): seq<string> {
    match kind
    case Enum(opts) => opts
    case Union(lits) => lits
    case _ => []
  }

  predicate AllNonEmpty(ss: seq<string>) {
    forall i :: 0 <= i < |ss| ==> ss[i] != ""
  }

  /** Every key and every option can be capitalised, so construction does not throw. */
  predicate Nameable(fs: seq<Field>) {
    forall i :: 0 <= i < |fs| ==> fs[i].key != "" && AllNonEmpty(OptionsOf(fs[i].kind))
  }

  /**
   A select with at least one literal reads the store with `useAtomValue`
   once per literal while its option entries are built, not while they render.
   */
  predicate ReadsStoreWhileBuilt(kind: Kind) {
    kind.Union? && kind.literals != []
  }

  predicate HookFree(fs: seq<Field>) {
    forall i :: 0 <= i < |fs| ==> !ReadsStoreWhileBuilt(fs[i].kind)
  }

  /**
   Construction throws nothing: every name can be capitalised, and any hook
   it calls runs while `ozef` is itself called from a component's render.
   */
  predicate Buildable(fs: seq<Field>, inRender: bool) {
    Nameable(fs) && (inRender || HookFree(fs))
  }

  /** The names the fields' entries get. */
  function FieldNames(fs: seq<Field>): set<string> {
    set i | 0 <= i < |fs| && fs[i].key != "" :: CapitalizeNonEmpty(fs[i].key)
  }

  /**
   The option sub-entries of one field, later options overwriting earlier
   ones of the same name. Each option is capitalised and then, when
   `hookThrows`, the store read fails; so the first option decides which
   throw happens.
   */
  function OptionEntries(opts: seq<string>, hookThrows: bool): (r: Result<map<string, string>, Thrown>)
    ensures r.Success? <==> AllNonEmpty(opts) && (opts == [] || !hookThrows)
    ensures r.Failure? && !hookThrows ==> r.error == NoFirstLetter
    ensures r.Failure? && AllNonEmpty(opts) ==> r.error == InvalidHookCall
    ensures r.Failure? && hookThrows ==> (r.error == NoFirstLetter <==> opts[0] == "")
    ensures r.Success? ==> r.value.Keys == set i | 0 <= i < |opts| && opts[i] != "" :: CapitalizeNonEmpty(opts[i])
    ensures r.Success? ==> forall n :: n in r.value ==> r.value[n] in opts && CapitalizeNonEmpty(r.value[n]) == n
    decreases |opts|
  {
    if opts == [] then Success(map[])
    else
      var init, last := opts[..|opts| - 1], opts[|opts| - 1];
      assert opts == init + [last];
      match OptionEntries(init, hookThrows)
      case Failure(e) => Failure(e)
      case Success(m) =>
        match Capitalize(last)
        case Failure(_) => Failure(NoFirstLetter)
        case Success(name) => if hookThrows then Failure(InvalidHookCall) else Success(m[name := last])
  }

  /** Splitting off the last field of a schema prefix. */
  lemma SplitLast(fs: seq<Field>)
    requires fs != []
    ensures Nameable(fs) <==>
              Nameable(fs[..|fs| - 1]) && fs[|fs| - 1].key != "" && AllNonEmpty(OptionsOf(fs[|fs| - 1].kind))
    ensures fs[|fs| - 1].key != "" ==>
              FieldNames(fs) == FieldNames(fs[..|fs| - 1]) + {CapitalizeNonEmpty(fs[|fs| - 1].key)}
    ensures FieldKeys(fs) == FieldKeys(fs[..|fs| - 1]) + {fs[|fs| - 1].key}
    ensures HookFree(fs) <==> HookFree(fs[..|fs| - 1]) && !ReadsStoreWhileBuilt(fs[|fs| - 1].kind)
  {
    var init := fs[..|fs| - 1];
    assert fs == init + [fs[|fs| - 1]];
    assert forall i :: 0 <= i < |init| ==> init[i] == fs[i];
  }

  /**
   One turn of the construction loop: the field's name, then its option
   sub-entries.
   */
  function FieldEntry(f: Field, inRender: bool): (r: Result<(string, Binding), Thrown>)
    ensures r.Success? <==>
              f.key != "" && AllNonEmpty(OptionsOf(f.kind)) && (inRender || !ReadsStoreWhileBuilt(f.kind))
    ensures r.Failure? && f.key != "" && AllNonEmpty(OptionsOf(f.kind)) ==> r.error == InvalidHookCall
    ensures r.Failure? && (inRender || !ReadsStoreWhileBuilt(f.kind)) ==> r.error == NoFirstLetter
    ensures r.Success? ==> r.value.0 == CapitalizeNonEmpty(f.key) && r.value.1.key == f.key
    ensures r.Success? ==> r.value.1.options == OptionEntries(OptionsOf(f.kind), f.kind.Union? && !inRender).value
  {
    match Capitalize(f.key)
    case Failure(_) => Failure(NoFirstLetter)
    case Success(name) =>
      match OptionEntries(OptionsOf(f.kind), f.kind.Union? && !inRender)
      case Failure(e) => Failure(e)
      case Success(subs) => Success((name, Binding(f.key, subs)))
  }

  /**
   The `Form.Field` entries for a prefix of the schema, as the construction
   loop has built them so far: later fields overwrite earlier ones of the
   same name.
   */
  function FieldEntries(fs: seq<Field>, inRender: bool): (r: Result<map<string, Binding>, Thrown>)
    ensures r.Success? <==> Buildable(fs, inRender)
    ensures r.Failure? && Nameable(fs) ==> r.error == InvalidHookCall
    ensures r.Failure? && (inRender || HookFree(fs)) ==> r.error == NoFirstLetter
    ensures r.Success? ==> r.value.Keys == FieldNames(fs)
    ensures r.Success? ==> forall n :: n in r.value ==>
              && r.value[n].key in FieldKeys(fs)
              && r.value[n].key != ""
              && CapitalizeNonEmpty(r.value[n].key) == n
    decreases |fs|
  {
    if fs == [] then Success(map[])
    else
      var init, last := fs[..|fs| - 1], fs[|fs| - 1];
      SplitLast(fs);
      match FieldEntries(init, inRender)
      case Failure(e) => Failure(e)
      case Success(m) =>
        match FieldEntry(last, inRender)
        case Failure(e) => Failure(e)
        case Success(entry) => Success(m[entry.0 := entry.1])
  }

  /**
   What `ozef` returns besides the store: the field namespace, and the error
   namespace with one view per field name and `Form.Error.Submission`
   assigned after the loop over fields. `inRender` says whether `ozef` is
   called while a component renders.
   */
  function Build(form: Form, inRender: bool): (r: Result<Facade, Thrown>)
    ensures r.Success? <==> Buildable(form.fields, inRender)
    ensures r.Failure? && Nameable(form.fields) ==> r.error == InvalidHookCall
    ensures r.Failure? && (inRender || HookFree(form.fields)) ==> r.error == NoFirstLetter
    ensures r.Success? ==> r.value.fields.Keys == FieldNames(form.fields)
    ensures r.Success? ==> r.value.errors.Keys == FieldNames(form.fields) + {"Submission"}
    ensures r.Success? ==> r.value.errors["Submission"] == SubmissionError
    ensures r.Success? ==> forall n :: n in r.value.errors && n != "Submission" ==>
              r.value.errors[n] == FieldError(r.value.fields[n].key)
  {
    match FieldEntries(form.fields, inRender)
    case Failure(e) => Failure(e)
    case Success(fields) =>
      var errors := map n | n in fields :: FieldError(fields[n].key);
      Success(Facade(fields, errors["Submission" := SubmissionError]))
  }

  /**
   A form with a select that has literals can only be built from inside a
   render; from module level, as a form is usually declared, `ozef` throws.
   */
  lemma SelectNeedsRender(form: Form, i: nat)
    requires Nameable(form.fields) && i < |form.fields| && ReadsStoreWhileBuilt(form.fields[i].kind)
    ensures Build(form, false) == Failure(InvalidHookCall)
    ensures Build(form, true).Success?
  {
  }

  /**
   Later options overwrite earlier ones of the same name: an option's name
   is bound to it when no later option capitalises alike.
   */
  lemma {:induction false} OptionEntriesLastWins(opts: seq<string>, hookThrows: bool, i: nat)
    requires OptionEntries(opts, hookThrows).Success? && i < |opts|
    requires forall j :: i < j < |opts| ==> CapitalizeNonEmpty(opts[j]) != CapitalizeNonEmpty(opts[i])
    ensures OptionEntries(opts, hookThrows).value[CapitalizeNonEmpty(opts[i])] == opts[i]
    decreases |opts|
  {
    var init, last := opts[..|opts| - 1], opts[|opts| - 1];
    assert opts == init + [last];
    if i < |opts| - 1 {
      assert forall j :: i < j < |init| ==> init[j] == opts[j];
      OptionEntriesLastWins(init, hookThrows, i);
      assert init[i] == opts[i];
    }
  }

  /** One turn of the loop binds the last field's name and keeps every other binding. */
  lemma FieldEntriesStep(fs: seq<Field>, inRender: bool)
    requires Buildable(fs, inRender) && fs != []
    ensures Buildable(fs[..|fs| - 1], inRender) && FieldEntry(fs[|fs| - 1], inRender).Success?
    ensures FieldEntries(fs, inRender).value ==
            FieldEntries(fs[..|fs| - 1], inRender).value[CapitalizeNonEmpty(fs[|fs| - 1].key) :=
              FieldEntry(fs[|fs| - 1], inRender).value.1]
  {
    SplitLast(fs);
  }

  /** Field `i` has a name, and no later field capitalises to it. */
  predicate LastWithName(fs: seq<Field>, i: nat)
    requires i < |fs|
  {
    && fs[i].key != ""
    && forall j :: i < j < |fs| && fs[j].key != "" ==> CapitalizeNonEmpty(fs[j].key) != CapitalizeNonEmpty(fs[i].key)
  }

  /**
   Later fields overwrite earlier ones of the same name: a name holds the
   entry of the last field that has it, bound to that field's key.
   */
  lemma {:induction false} FieldEntriesLastWins(fs: seq<Field>, inRender: bool, i: nat)
    requires Buildable(fs, inRender) && i < |fs| && LastWithName(fs, i)
    ensures FieldEntry(fs[i], inRender).Success?
    ensures FieldEntries(fs, inRender).value[CapitalizeNonEmpty(fs[i].key)] == FieldEntry(fs[i], inRender).value.1
    decreases |fs|
  {
    FieldEntriesStep(fs, inRender);
    if i < |fs| - 1 {
      LastWithNamePrefix(fs, i);
      FieldEntriesLastWins(fs[..|fs| - 1], inRender, i);
    }
  }

  /** Dropping a later field keeps an earlier field the last one with its name. */
  lemma LastWithNamePrefix(fs: seq<Field>, i: nat)
    requires i < |fs| - 1 && LastWithName(fs, i)
    ensures fs[..|fs| - 1][i] == fs[i] && LastWithName(fs[..|fs| - 1], i)
    ensures fs[|fs| - 1].key != "" ==> CapitalizeNonEmpty(fs[|fs| - 1].key) != CapitalizeNonEmpty(fs[i].key)
  {
    var init := fs[..|fs| - 1];
    assert forall j :: i < j < |init| ==> init[j] == fs[j];
  }

  /**
   In the built facade, `Form.Field.<Name>` of the last field with that name
   is bound to its key and carries that field's option sub-entries.
   */
  lemma BuildBindsLastField(form: Form, inRender: bool, i: nat)
    requires Buildable(form.fields, inRender) && i < |form.fields| && LastWithName(form.fields, i)
    ensures var f := form.fields[i];
            && OptionEntries(OptionsOf(f.kind), f.kind.Union? && !inRender).Success?
            && Build(form, inRender).value.fields[CapitalizeNonEmpty(f.key)] ==
               Binding(f.key, OptionEntries(OptionsOf(f.kind), f.kind.Union? && !inRender).value)
  {
    FieldEntriesLastWins(form.fields, inRender, i);
  }

  /** The keys `name` and `Name` collide on `Name`, and the later field wins. */
  lemma CollidingKeysLastWins(inRender: bool)
    ensures var fs := [Field("name", Text), Field("Name", Text)];
            && FieldEntries(fs, inRender).Success?
            && FieldEntries(fs, inRender).value.Keys == {"Name"}
            && FieldEntries(fs, inRender).value["Name"].key == "Name"
  {
    var fs := [Field("name", Text), Field("Name", Text)];
    assert CapitalizeNonEmpty("name") == "Name";
    assert CapitalizeNonEmpty("Name") == "Name";
    assert CapitalizeNonEmpty(fs[1].key) in FieldNames(fs);
    forall n | n in FieldNames(fs)
      ensures n == "Name"
    {
      var i :| 0 <= i < |fs| && fs[i].key != "" && CapitalizeNonEmpty(fs[i].key) == n;
    }
    FieldEntriesLastWins(fs, inRender, 1);
  }

  /** No two keys share a name. */
  predicate NamesDistinct(fs: seq<Field>) {
    forall i, j ::
      (0 <= i < |fs| && 0 <= j < |fs| && fs[i].key != "" && fs[j].key != "" &&
       CapitalizeNonEmpty(fs[i].key) == CapitalizeNonEmpty(fs[j].key)) ==> fs[i].key == fs[j].key
  }

  /**
   When names do not collide, each field's name resolves to that field's
   binding: the entry under the name is bound to some key with that name,
   and only this field's key has it.
   */
  lemma FieldEntriesResolve(fs: seq<Field>, inRender: bool, i: nat)
    requires Buildable(fs, inRender) && NamesDistinct(fs) && i < |fs|
    ensures FieldEntries(fs, inRender).value[CapitalizeNonEmpty(fs[i].key)].key == fs[i].key
  {
    var name := CapitalizeNonEmpty(fs[i].key);
    assert name in FieldNames(fs);
    var bound := FieldEntries(fs, inRender).value[name].key;
    var j :| 0 <= j < |fs| && fs[j].key == bound;
    assert CapitalizeNonEmpty(fs[j].key) == name;
  }

  /** The same, stated for the whole form, including the error namespace. */
  lemma BuildResolves(form: Form, inRender: bool, i: nat)
    requires Buildable(form.fields, inRender) && NamesDistinct(form.fields) && i < |form.fields|
    ensures var name := CapitalizeNonEmpty(form.fields[i].key);
            && Build(form, inRender).value.fields[name].key == form.fields[i].key
            && (name != "Submission" ==> Build(form, inRender).value.errors[name] == FieldError(form.fields[i].key))
  {
    FieldEntriesResolve(form.fields, inRender, i);
    var name := CapitalizeNonEmpty(form.fields[i].key);
    assert name in FieldNames(form.fields);
  }

  /**
   A schema key `submission` gets a field entry, but its error view is
   replaced by the submission view.
   */
  lemma SubmissionKeyShadowed(form: Form, inRender: bool, i: nat)
    requires Buildable(form.fields, inRender) && i < |form.fields| && form.fields[i].key == "submission"
    ensures "Submission" in Build(form, inRender).value.fields
    ensures Build(form, inRender).value.errors["Submission"] == SubmissionError
  {
    assert CapitalizeNonEmpty("submission") == "Submission";
    assert "Submission" in FieldNames(form.fields);
  }
}

=== FILE: results.dfy ===
/** Small failure-carrying datatypes shared by the form model. */
module Results {

  /** A value that may be missing; `None` plays the role of JavaScript's `undefined`. */
  datatype Option<+T> = None | Some(value: T) {

    /** The wrapped value, or `fallback` when there is none (JavaScript's `??`). */
    function OrElse(fallback: T): T {
      match this
      case Some(v) => v
      case None => fallback
    }
  }

  /** The outcome of a step that can throw: a value, or the thrown error. */
  datatype Result<+R, +E> = Success(value: R) | Failure(error: E)

  /**
   Reading an own property of a plain object: its value, else `undefined`.
   Properties inherited from `Object.prototype` are not modelled.
   */
  function Get<K, V>(m: map<K, V>, k: K): (r: Option<V>)
    ensures r.Some? <==> k in m
    ensures r.Some? ==> r.value == m[k]
  {
    if k in m then Some(m[k]) else None
  }
}

=== FILE: scenarios.dfy ===
/**
 Concrete walk-throughs of the engine on small schemas, each stated as a
 lemma over the model.
 */
module Scenarios {
  import opened Results
  import opened Schema
  import opened FormStore
  import opened FieldBindings
  import opened Submission
  import opened ErrorViews

  /** `name` must be a non-empty string; `subscribe` must be a boolean. */
  function SignupRule(k: Key, v: Option<Raw>): Verdict {
    if k == "name" then
      (if v.Some? && v.value.Str? && v.value.s != "" then Valid else Invalid(["Required"]))
    else if v.Some? && v.value.Bool? then Valid
    else Invalid(["Expected boolean"])
  }

  /** The schema `{ name: text, subscribe: boolean }`. */
  function Signup(): (form: Form)
    ensures Keys(form) == ["name", "subscribe"] && KeySet(form) == {"name", "subscribe"} && ValidForm(form)
    ensures FieldOf(form, "name") == Some(Field("name", Text))
    ensures FieldOf(form, "subscribe") == Some(Field("subscribe", Boolean))
  {
    var form := Form([Field("name", Text), Field("subscribe", Boolean)], SignupRule);
    assert Keys(form) == ["name", "subscribe"];
    form
  }

  /**
   Submitting the empty form calls nothing, shows the `name` error after the
   submit, and shows the submission view since every key is now touched.
   */
  lemma EmptySignupIsBlocked()
    ensures var r := Submit(Signup(), Init(map[]), true);
            && r.call.None?
            && !r.store.submitting
            && FieldErrorView(r.store, "name") == Some("Required")
            && SubmissionView(Signup(), r.store).Some?
  {
    var form := Signup();
    assert SomeFieldFails(form, map[]) by {
      assert form.validate("name", Get(map[], "name")).Invalid?;
    }
    SubmitErrorViews(form, Init(map[]), true, "name");
  }

  /**
   Typing `Ada` and ticking the checkbox lets the submit through: the
   callback receives exactly those two values and no field error renders.
   */
  lemma FilledSignupSubmits()
    ensures var s := OnChange(Signup(), OnChange(Signup(), Init(map[]), "name", "Ada"), "subscribe", "");
            var r := Submit(Signup(), s, true);
            && r.call == Some(map["name" := Str("Ada"), "subscribe" := Bool(true)])
            && r.store.submitting
            && FieldErrorView(r.store, "name").None?
            && FieldErrorView(r.store, "subscribe").None?
  {
    var form := Signup();
    var s := OnChange(form, OnChange(form, Init(map[]), "name", "Ada"), "subscribe", "");
    assert s.values == map["name" := Str("Ada"), "subscribe" := Bool(true)];
    assert !SomeFieldFails(form, s.values);
  }

  /** A required radio group with options `a`, `b`, `c`. */
  function PlanRule(k: Key, v: Option<Raw>): Verdict {
    if v == Some(Str("a")) || v == Some(Str("b")) || v == Some(Str("c")) then Valid
    else Invalid(["Invalid enum value"])
  }

  function Plans(): (form: Form)
    ensures KeySet(form) == {"plan"} && ValidForm(form)
    ensures FieldOf(form, "plan") == Some(Field("plan", Enum(["a", "b", "c"])))
  {
    var form := Form([Field("plan", Enum(["a", "b", "c"]))], PlanRule);
    assert Keys(form) == ["plan"];
    form
  }

  /** With no selection the submit is blocked; after picking `b` it goes through with `b`. */
  lemma PickThenSubmit()
    ensures Submit(Plans(), Init(map[]), true).call.None?
    ensures Submit(Plans(), OnChange(Plans(), Init(map[]), "plan", "b"), true).call == Some(map["plan" := Str("b")])
  {
    var form := Plans();
    assert SomeFieldFails(form, map[]) by {
      assert form.validate("plan", None).Invalid?;
    }
    var s := OnChange(form, Init(map[]), "plan", "b");
    assert s.values == map["plan" := Str("b")];
    assert !SomeFieldFails(form, s.values);
  }
}

=== FILE: schema.dfy ===
/**
 The form's schema: an ordered list of fields, each with one of the five
 supported kinds, and an abstract validator standing for the schema library's
 `safeParse` on that field.
 */
module Schema {
  import opened Results
  import opened JsObject

  type Key = string

  /**
   The five supported field shapes. `Text` and `Number` share one binding;
   `Enum` is rendered as a radio group, `Union` (of string literals) as a select.
   */
  datatype Kind = Text | Number | Boolean | Enum(options: seq<string>) | Union(literals: seq<string>)

  datatype Field = Field(key: Key, kind: Kind)

  /** A raw, unparsed value as held by the store. */
  datatype Raw = Str(s: string) | Bool(b: bool) | Num(n: int)

  /** The outcome of validating one raw value: success, or failure with its issue messages. */
  datatype Verdict = Valid | Invalid(messages: seq<string>)

  /**
   A form description: the schema's fields in declaration order and the
   validator, which receives the field's key and its raw value (`None` when
   the value is `undefined`).
   */
  datatype Form = Form(fields: seq<Field>, validate: (Key, Option<Raw>) -> Verdict)

  function Keys(form: Form): (ks: seq<Key>)
    ensures |ks| == |form.fields|
    ensures forall i :: 0 <= i < |ks| ==> ks[i] == form.fields[i].key
  {
    seq(|form.fields|, i requires 0 <= i < |form.fields| => form.fields[i].key)
  }

  /** The keys a sequence of fields declares. */
  function FieldKeys(fs: seq<Field>): set<Key> {
    set i | 0 <= i < |fs| :: fs[i].key
  }

  function KeySet(form: Form): (ks: set<Key>)
    ensures forall k :: k in ks <==> k in Keys(form)
  {
    FieldKeys(form.fields)
  }

  predicate Distinct(ks: seq<Key>) {
    forall i, j :: 0 <= i < j < |ks| ==> ks[i] != ks[j]
  }

  /** The keys of a schema object are distinct by construction. */
  predicate ValidForm(form: Form) {
    Distinct(Keys(form))
  }

  /** The field declared under `key`, if any. */
  function FieldOf(form: Form, key: Key): (r: Option<Field>)
    ensures r.Some? <==> key in KeySet(form)
    ensures r.Some? ==> r.value in form.fields && r.value.key == key
    ensures ValidForm(form) ==> forall i :: 0 <= i < |form.fields| && form.fields[i].key == key ==> r == Some(form.fields[i])
  {
    FirstWithKey(form.fields, key)
  }

  function FirstWithKey(fs: seq<Field>, key: Key): (r: Option<Field>)
    ensures r.Some? <==> exists i :: 0 <= i < |fs| && fs[i].key == key
    ensures r.Some? ==> r.value in fs && r.value.key == key
    ensures forall i :: 0 <= i < |fs| && fs[i].key == key && (forall j :: 0 <= j < i ==> fs[j].key != key) ==> r == Some(fs[i])
  {
    if fs == [] then None
    else if fs[0].key == key then Some(fs[0])
    else
      var rest := fs[1..];
      assert forall i :: 1 <= i < |fs| ==> fs[i] == rest[i - 1];
      FirstWithKey(rest, key)
  }

  /** The touched record listing each of `ks`, in order, as `true`. */
  function AllTrue(ks: seq<Key>): (o: Entries<bool>)
    ensures |o| == |ks|
    ensures forall i :: 0 <= i < |ks| ==> o[i] == (ks[i], true)
  {
    if ks == [] then [] else [(ks[0], true)] + AllTrue(ks[1..])
  }

  /** `ks.reduce((acc, key) => ({ ...acc, [key]: true }), acc)`. */
  function TouchAll(acc: Entries<bool>, ks: seq<Key>): Entries<bool>
    decreases |ks|
  {
    if ks == [] then acc else TouchAll(Put(acc, ks[0], true), ks[1..])
  }

  /** `ALL_TOUCHED`: every schema key marked touched, built by the same reduce as submit uses. */
  function AllTouched(form: Form): Entries<bool>
  {
    TouchAll([], Keys(form))
  }

  /**
   Folding spread-assignments over distinct fresh keys appends one entry per
   key, in order.
   */
  lemma {:induction false} TouchAllAppends(acc: Entries<bool>, ks: seq<Key>)
    requires Distinct(ks)
    requires forall k :: k in ks ==> !HasKey(acc, k)
    ensures TouchAll(acc, ks) == acc + AllTrue(ks)
    decreases |ks|
  {
    if ks != [] {
      assert !HasKey(acc, ks[0]);
      var next := acc + [(ks[0], true)];
      assert Put(acc, ks[0], true) == next;
      assert TouchAll(acc, ks) == TouchAll(next, ks[1..]);
      forall k | k in ks[1..]
        ensures !HasKey(next, k)
      {
        assert k != ks[0];
        HasKeyAppend(acc, ks[0], true, k);
      }
      TouchAllAppends(next, ks[1..]);
      ConcatAssoc(acc, [(ks[0], true)], AllTrue(ks[1..]));
    }
  }

  lemma ConcatAssoc<T>(a: seq<T>, b: seq<T>, c: seq<T>)
    ensures (a + b) + c == a + (b + c)
  {
  }

  /** The listing of distinct keys is an object reading `true` at exactly those keys. */
  lemma AllTrueReads(ks: seq<Key>)
    requires Distinct(ks)
    ensures KeyList(AllTrue(ks)) == ks
    ensures DistinctKeys(AllTrue(ks))
    ensures forall k :: k in ks ==> Lookup(AllTrue(ks), k) == Some(true)
    ensures forall k :: k !in ks ==> Lookup(AllTrue(ks), k) == None
  {
    var o := AllTrue(ks);
    assert KeyList(o) == ks by {
      assert forall i :: 0 <= i < |o| ==> KeyList(o)[i] == ks[i];
    }
    forall i, j | 0 <= i < j < |o|
      ensures o[i].0 != o[j].0
    {
      assert o[i].0 == ks[i] && o[j].0 == ks[j];
    }
    forall k | k in ks
      ensures Lookup(o, k) == Some(true)
    {
      var i :| 0 <= i < |ks| && ks[i] == k;
      LookupAt(o, i);
    }
  }

  /**
   `ALL_TOUCHED` lists exactly the schema keys in schema order, each `true`,
   so it is an object with distinct keys that reads `true` at every schema key.
   */
  lemma AllTouchedShape(form: Form)
    requires ValidForm(form)
    ensures AllTouched(form) == AllTrue(Keys(form))
    ensures KeyList(AllTouched(form)) == Keys(form)
    ensures DistinctKeys(AllTouched(form))
    ensures forall k :: k in KeySet(form) ==> Lookup(AllTouched(form), k) == Some(true)
    ensures forall k :: k !in KeySet(form) ==> Lookup(AllTouched(form), k) == None
  {
    var ks := Keys(form);
    TouchAllAppends([], ks);
    assert [] + AllTrue(ks) == AllTrue(ks);
    AllTrueReads(ks);
  }
}

=== FILE: store.dfy ===
/**
 The per-form store: the five cells a form instance owns, held together in
 one immutable record. Every transition of the engine is a function from one
 store to the next.
 */
module FormStore {
  import opened Results
  import opened JsObject
  import opened Schema

  /**
   What the errors cell holds for a key: `undefined` (written explicitly by a
   successful validation), the validator's structured failure, or a plain
   message injected by `setError`.
   */
  datatype ErrorSlot = Undefined | Issues(messages: seq<string>) | Message(text: string)

  /**
   The five cells: raw values, errors (schema keys plus the reserved
   `submission` key), touched flags (an ordered object, since it is compared
   by serialisation), the `submitting` flag and the `submitted` flag.
   */
  datatype Store = Store(
    values: map<Key, Raw>,
    errors: map<Key, ErrorSlot>,
    touched: Entries<bool>,
    submitting: bool,
    submitted: bool)

  /** The reserved errors key for a form-wide message. */
  const SubmissionKey: Key := "submission"

  /** The cells as created: values seeded from `defaults` (or `{}`), all else empty or false. */
  function Init(defaults: map<Key, Raw>): (s: Store)
    ensures s.values == defaults
    ensures s.errors == map[] && s.touched == []
    ensures !s.submitting && !s.submitted
  {
    Store(defaults, map[], [], false, false)
  }

  /** JavaScript truthiness of a raw value (`undefined`, `""`, `false` and `0` are falsy). */
  predicate Truthy(v: Option<Raw>) {
    match v
    case None => false
    case Some(Str(t)) => t != ""
    case Some(Bool(b)) => b
    case Some(Num(n)) => n != 0
  }

  /** JavaScript truthiness of an errors entry: a failure object is always truthy, a message unless empty. */
  predicate ErrorTruthy(e: Option<ErrorSlot>) {
    match e
    case None => false
    case Some(Undefined) => false
    case Some(Issues(_)) => true
    case Some(Message(t)) => t != ""
  }

  /** The errors entry a validation outcome produces. */
  function ErrorOf(v: Verdict): (e: ErrorSlot)
    ensures e == Undefined <==> v.Valid?
    ensures v.Invalid? ==> e == Issues(v.messages)
  {
    match v
    case Valid => Undefined
    case Invalid(msgs) => Issues(msgs)
  }

  /** `touched[key]` read as a condition. */
  predicate IsTouched(s: Store, key: Key) {
    Lookup(s.touched, key) == Some(true)
  }
}

=== FILE: submission.dfy ===
/**
 The submit handler of the generated form element and the utilities it hands
 to the `onSubmit` callback (`reset`, `setError`), plus the `useReset` hook,
 which performs the same reset.
 */
module Submission {
  import opened Results
  import opened JsObject
  import opened Schema
  import opened FormStore

  /** The fresh errors object submit builds: one entry per schema key, from its validation. */
  function ValidateAll(form: Form, values: map<Key, Raw>): (errs: map<Key, ErrorSlot>)
    ensures errs.Keys == KeySet(form)
    ensures forall k :: k in errs ==> (errs[k] == Undefined <==> form.validate(k, Get(values, k)).Valid?)
    ensures forall k :: k in errs && form.validate(k, Get(values, k)).Invalid? ==>
              errs[k] == Issues(form.validate(k, Get(values, k)).messages)
  {
    map k | k in KeySet(form) :: ErrorOf(form.validate(k, Get(values, k)))
  }

  /** `Object.values(errors).some((error) => error !== undefined)`. */
  predicate AnyError(errs: map<Key, ErrorSlot>) {
    exists k :: k in errs && errs[k] != Undefined
  }

  /** Whether some schema key fails validation on `values`. */
  predicate SomeFieldFails(form: Form, values: map<Key, Raw>) {
    exists k :: k in KeySet(form) && form.validate(k, Get(values, k)).Invalid?
  }

  /** The store after a submit event, and the data the callback was called with, if it was. */
  datatype SubmitOutcome = SubmitOutcome(store: Store, call: Option<map<Key, Raw>>)

  /**
   The form's `onSubmit` handler. It validates every schema key, marks every
   key touched, and commits both. If any key failed it returns there;
   otherwise it sets `submitting` and, when a callback was given, calls it
   once with the raw values. `submitted` is never written.
   */
  function Submit(form: Form, s: Store, hasCallback: bool): (r: SubmitOutcome)
    ensures r.store.values == s.values && r.store.submitted == s.submitted
    ensures r.store.errors.Keys == KeySet(form)
    ensures forall k :: k in KeySet(form) ==>
              (r.store.errors[k] == Undefined <==> form.validate(k, Get(s.values, k)).Valid?)
    ensures forall k :: k in KeySet(form) && form.validate(k, Get(s.values, k)).Invalid? ==>
              r.store.errors[k] == Issues(form.validate(k, Get(s.values, k)).messages)
    ensures r.store.touched == AllTouched(form)
    ensures AnyError(r.store.errors) <==> SomeFieldFails(form, s.values)
    ensures SomeFieldFails(form, s.values) ==> r.store.submitting == s.submitting && r.call.None?
    ensures !SomeFieldFails(form, s.values) ==>
              r.store.submitting && (r.call.Some? <==> hasCallback) && (hasCallback ==> r.call.value == s.values)
  {
    var errs := ValidateAll(form, s.values);
    var touched := TouchAll([], Keys(form));
    var committed := s.(errors := errs, touched := touched);
    if AnyError(errs) then
      SubmitOutcome(committed, None)
    else
      SubmitOutcome(committed.(submitting := true), if hasCallback then Some(s.values) else None)
  }

  /** The `finally` of the callback's promise: `submitting` back to false, whatever the outcome. */
  function Settle(s: Store): (r: Store)
    ensures !r.submitting
    ensures r.values == s.values && r.errors == s.errors && r.touched == s.touched
    ensures r.submitted == s.submitted
  {
    s.(submitting := false)
  }

  /**
   `utils.reset` and the function `useReset` returns: values, errors and
   touched emptied, `submitting` false. Values become `{}`, not the
   defaults, and `submitted` is left alone.
   */
  function Reset(s: Store): (r: Store)
    ensures r.values == map[] && r.errors == map[] && r.touched == []
    ensures !r.submitting && r.submitted == s.submitted
  {
    Store(map[], map[], [], false, s.submitted)
  }

  /** `utils.setError`: a plain message under one key, bypassing validation. */
  function SetError(s: Store, key: Key, message: string): (r: Store)
    ensures Get(r.errors, key) == Some(Message(message))
    ensures forall k :: k != key ==> Get(r.errors, k) == Get(s.errors, k)
    ensures r.errors.Keys == s.errors.Keys + {key}
    ensures r.values == s.values && r.touched == s.touched
    ensures r.submitting == s.submitting && r.submitted == s.submitted
  {
    s.(errors := s.errors[key := Message(message)])
  }

  /** A call the callback makes on its `utils` argument. */
  datatype Util = ResetCall | SetErrorCall(key: Key, message: string)

  /**
   How a call of the callback ends. `Resolves` and `Rejects` hand a value or
   a promise to `Promise.resolve`, whose `finally` then runs; `Throws` is a
   synchronous throw, which leaves the handler before `Promise.resolve` is
   reached. An `async` callback that fails rejects, it does not throw.
   */
  datatype Outcome = Resolves | Rejects | Throws

  /** An `onSubmit` callback, described by the utility calls it makes and how its call ends. */
  datatype Callback = Callback(effects: seq<Util>, outcome: Outcome)

  function ApplyUtil(s: Store, u: Util): Store {
    match u
    case ResetCall => Reset(s)
    case SetErrorCall(k, m) => SetError(s, k, m)
  }

  /**
   The utility calls in order. None of them sets `submitting`; it ends true
   exactly when it was true and no `reset` was called. Only `reset` writes
   values and touched, emptying both, and the last call, when it is a
   `setError`, leaves its message under its key.
   */
  function ApplyUtils(s: Store, us: seq<Util>): (r: Store)
    ensures r.submitting <==> s.submitting && ResetCall !in us
    ensures r.submitted == s.submitted
    ensures ResetCall !in us ==> r.values == s.values && r.touched == s.touched
    ensures ResetCall in us ==> r.values == map[] && r.touched == []
    ensures us != [] && us[|us| - 1].SetErrorCall? ==>
              Get(r.errors, us[|us| - 1].key) == Some(Message(us[|us| - 1].message))
    decreases |us|
  {
    if us == [] then s
    else
      assert us == [us[0]] + us[1..];
      ApplyUtils(ApplyUtil(s, us[0]), us[1..])
  }

  /** The outcome of one submit attempt run to completion: final store and the callback's calls. */
  datatype Attempted = Attempted(store: Store, calls: seq<map<Key, Raw>>)

  /**
   One submit event followed, when the gate lets it through and a callback
   exists, by the callback's utility calls and then, unless the call threw
   synchronously, the `finally` step. When a field fails there is no call
   and `submitting` is unchanged. Otherwise a callback, if given, is called
   exactly once with the raw values; `submitting` ends false when the call
   resolves or rejects, but after a synchronous throw it stays true unless
   the callback reset the form. Without a callback `submitting` stays true.
   */
  function Attempt(form: Form, s: Store, onSubmit: Option<Callback>): (r: Attempted)
    ensures |r.calls| <= 1
    ensures SomeFieldFails(form, s.values) ==> r.calls == [] && r.store.submitting == s.submitting
    ensures !SomeFieldFails(form, s.values) && onSubmit.Some? ==> r.calls == [s.values]
    ensures !SomeFieldFails(form, s.values) && onSubmit.Some? && !onSubmit.value.outcome.Throws? ==>
              !r.store.submitting
    ensures !SomeFieldFails(form, s.values) && onSubmit.Some? && onSubmit.value.outcome.Throws? ==>
              (r.store.submitting <==> ResetCall !in onSubmit.value.effects)
    ensures !SomeFieldFails(form, s.values) && onSubmit.None? ==> r.calls == [] && r.store.submitting
    ensures r.store.submitted == s.submitted
  {
    var sub := Submit(form, s, onSubmit.Some?);
    match sub.call
    case None => Attempted(sub.store, [])
    case Some(data) =>
      var after := ApplyUtils(sub.store, onSubmit.value.effects);
      if onSubmit.value.outcome.Throws? then Attempted(after, [data])
      else Attempted(Settle(after), [data])
  }

  /**
   A submit attempt whose `finally` step also covers a synchronous throw, as
   when the callback is called inside `try` / `finally`: a passing attempt
   with a callback always ends with `submitting` false.
   */
  function AttemptFinalized(form: Form, s: Store, onSubmit: Option<Callback>): (r: Attempted)
    ensures |r.calls| <= 1
    ensures SomeFieldFails(form, s.values) ==> r.calls == [] && r.store.submitting == s.submitting
    ensures !SomeFieldFails(form, s.values) && onSubmit.Some? ==> r.calls == [s.values] && !r.store.submitting
    ensures !SomeFieldFails(form, s.values) && onSubmit.None? ==> r.calls == [] && r.store.submitting
    ensures r.store.submitted == s.submitted
  {
    var sub := Submit(form, s, onSubmit.Some?);
    match sub.call
    case None => Attempted(sub.store, [])
    case Some(data) => Attempted(Settle(ApplyUtils(sub.store, onSubmit.value.effects)), [data])
  }

  /** The two attempts differ only when the callback throws synchronously. */
  lemma FinalizedAgreesUnlessThrown(form: Form, s: Store, cb: Callback)
    requires !cb.outcome.Throws?
    ensures AttemptFinalized(form, s, Some(cb)) == Attempt(form, s, Some(cb))
  {
  }

  /**
   A callback that throws synchronously without resetting the form leaves
   the form submitting for good, where the finalized attempt clears it.
   */
  lemma ThrowingCallbackLeavesSubmitting(form: Form, s: Store)
    requires !SomeFieldFails(form, s.values)
    ensures Attempt(form, s, Some(Callback([], Throws))).store.submitting
    ensures !AttemptFinalized(form, s, Some(Callback([], Throws))).store.submitting
  {
  }

  /**
   After submit the touched record equals `ALL_TOUCHED` however the fields
   were blurred before: every schema key, in schema order, reads `true`.
   */
  lemma SubmitTouchesAll(form: Form, s: Store, hasCallback: bool)
    requires ValidForm(form)
    ensures KeyList(Submit(form, s, hasCallback).store.touched) == Keys(form)
    ensures forall k :: k in KeySet(form) ==> IsTouched(Submit(form, s, hasCallback).store, k)
  {
    AllTouchedShape(form);
  }

  /** A previous form-wide message does not survive a submit, unless `submission` is itself a schema key. */
  lemma SubmitDropsSubmissionError(form: Form, s: Store, hasCallback: bool)
    requires SubmissionKey !in KeySet(form)
    ensures SubmissionKey !in Submit(form, s, hasCallback).store.errors
  {
  }

  /**
   Nothing stops a second submit while one is in flight: with valid values
   and a callback, the callback is called again.
   */
  lemma NoSingleFlight(form: Form, s: Store)
    requires s.submitting && !SomeFieldFails(form, s.values)
    ensures Submit(form, s, true).call == Some(s.values)
    ensures Submit(form, s, true).store.submitting
  {
  }

  /** Reset forgets everything but `submitted`, whatever it is applied to. */
  lemma ResetForgetsHistory(s: Store, t: Store)
    requires s.submitted == t.submitted
    ensures Reset(s) == Reset(t)
  {
  }

  /** Reset does not restore the defaults a form was created with. */
  lemma ResetIgnoresDefaults(defaults: map<Key, Raw>)
    requires defaults != map[]
    ensures Reset(Init(defaults)).values != Init(defaults).values
  {
  }
}

=== FILE: text.dfy ===
/** String helpers the form engine uses to name its components and render errors. */
module Text {
  import opened Results

  /** What JavaScript throws when `key[0]!.toUpperCase()` runs on an empty key. */
  datatype TypeError = UndefinedHasNoToUpperCase

  predicate IsLowerAscii(c: char) {
    'a' <= c <= 'z'
  }

  /** `toUpperCase` on one character, for the ASCII letters. */
  function UpperChar(c: char): (u: char)
    ensures !IsLowerAscii(u)
    ensures !IsLowerAscii(c) ==> u == c
    ensures IsLowerAscii(c) ==> 'A' <= u <= 'Z' && u as int - 'A' as int == c as int - 'a' as int
  {
    if IsLowerAscii(c) then (c as int - 'a' as int + 'A' as int) as char else c
  }

  /** `s[0].toUpperCase() + s.slice(1)` for a non-empty `s`. */
  function CapitalizeNonEmpty(s: string): (r: string)
    requires |s| > 0
    ensures |r| == |s| && r[0] == UpperChar(s[0]) && r[1..] == s[1..]
  {
    [UpperChar(s[0])] + s[1..]
  }

  /**
   `key[0]!.toUpperCase() + key.slice(1)`: the first character upper-cased and
   the rest kept; the non-null assertion is erased at run time, so an empty key
   reaches `undefined.toUpperCase()` and throws.
   */
  function Capitalize(s: string): (r: Result<string, TypeError>)
    ensures r.Failure? <==> s == ""
    ensures r.Success? ==> |r.value| == |s| && r.value[1..] == s[1..]
    ensures r.Success? ==> !IsLowerAscii(r.value[0]) && r.value[0] == UpperChar(s[0])
  {
    if s == "" then Failure(UndefinedHasNoToUpperCase) else Success(CapitalizeNonEmpty(s))
  }

  /** Capitalising twice changes nothing more than capitalising once. */
  lemma CapitalizeIdempotent(s: string)
    requires s != ""
    ensures Capitalize(s).Success? && Capitalize(Capitalize(s).value) == Capitalize(s)
  {
    var c := CapitalizeNonEmpty(s);
    assert CapitalizeNonEmpty(c) == [UpperChar(c[0])] + c[1..];
    assert UpperChar(c[0]) == c[0];
    assert c == [c[0]] + c[1..];
  }

  /** Two keys that differ only in the case of their first letter get the same name. */
  lemma CapitalizeCollides()
    ensures Capitalize("name") == Capitalize("Name") == Success("Name")
  {
    assert CapitalizeNonEmpty("name") == "Name";
  }

  /** `Array.prototype.join(sep)`: the parts in order, `sep` between neighbours. */
  function Join(parts: seq<string>, sep: string): string
  {
    if |parts| == 0 then ""
    else if |parts| == 1 then parts[0]
    else parts[0] + sep + Join(parts[1..], sep)
  }

  function TotalLength(parts: seq<string>): nat
  {
    if parts == [] then 0 else |parts[0]| + TotalLength(parts[1..])
  }

  /** The joined text holds every part plus one separator between each neighbouring pair. */
  lemma {:induction false} JoinLength(parts: seq<string>, sep: string)
    requires |parts| > 0
    ensures |Join(parts, sep)| == TotalLength(parts) + |sep| * (|parts| - 1)
  {
    if |parts| > 1 {
      JoinLength(parts[1..], sep);
    }
  }

  /** Joining one more part appends the separator and that part. */
  lemma {:induction false} JoinSnoc(parts: seq<string>, last: string, sep: string)
    requires |parts| > 0
    ensures Join(parts + [last], sep) == Join(parts, sep) + sep + last
  {
    if |parts| == 1 {
      assert (parts + [last])[1..] == [last];
    } else {
      assert (parts + [last])[1..] == parts[1..] + [last];
      JoinSnoc(parts[1..], last, sep);
    }
  }
}
